=== FILE: README.md ===
# Si5351 calibration sketch, modelled in Dafny

The sketch drives an Si5351 clock generator at a target frequency (20 MHz,
kept in hundredths of a hertz as a `uint64_t`) and lets the operator trim a
calibration offset from a serial terminal. Each key moves a trial frequency,
the target, the output drive strength or the crystal load capacitance. After
every accepted key other than `q` the offset is recomputed as the `int32_t`
difference target - trial plus the offset accepted so far, and the whole
configuration is applied to the chip (`set_cal_freq`), followed by one status line. `q` applies
once more, without recomputing, and accepts the offset; `R` re-initialises the
driver and restores the defaults, keeping the target.

The model is pure and functional:

- `MachineInt` has the machine arithmetic the sketch relies on: the
  `uint64_t` wrap, the `int32_t` cast and addition, and the unsigned
  pattern a hexadecimal print shows.
- `Driver` has the driver calls the sketch makes, as data, and `Chip`,
  what a sequence of calls leaves configured.
- `Session` has the sketch's globals as one `State` record and the state
  change of each kind of key, together with the offset formula.
- `Apply` has `set_cal_freq`, `prt_drive`, `prt_load` and `prt_status`. An
  apply is a list of events: driver calls, the error marker and the
  status line.
- `Interpreter` covers:
  - key dispatch (`Parse`) and its inverse (`KeyOf`);
  - one key (`Step`) and a pass over a key sequence (`Feed`, `Pass`);
  - `setup` (`Boot`) and one round of `loop` (`Loop`).
- `Scenarios` has concrete sessions from start-up.

The driver's replies (did `set_freq` fail, what the status register held) are
inputs: one `Reply` per key.

## Model

| member | source | states |
|---|---|---|
| MachineInt.Wrap64 | src/main.cpp:111-129 | the `uint64_t` result of a trial or target move is the one value in [0, 2^64) congruent to the exact sum, and the sum itself when no wrap occurs |
| MachineInt.ToInt32 | src/main.cpp:144 | the `(int32_t)` cast yields the one i32 congruent to its argument modulo 2^32, and the argument itself when it is in range |
| MachineInt.AddInt32 | src/main.cpp:144 | the `int32_t` addition of the cast difference and `old_cal` is congruent to the exact sum, and equal to it without overflow |
| MachineInt.ToUint32 | src/main.cpp:167 | the hexadecimal print shows a 32-bit pattern congruent to the offset |
| MachineInt.Uint32RoundTrip | src/main.cpp:165-167 | the hexadecimal pattern and the decimal value printed on one status line determine each other: casting the pattern back gives the offset |
| MachineInt.ToInt32OfWrap64 | src/main.cpp:144 | casting the wrapped `uint64_t` difference gives the same offset as casting the exact difference |
| Session.Offset | src/main.cpp:144 | the recomputed offset is congruent modulo 2^32 to target - trial + accepted offset, and equal to it when that is in the i32 range |
| Session.Recompute | src/main.cpp:144 | after the recomputation the offset is the one the frequencies call for, and no other field changes |
| Session.Reseed | src/main.cpp:85-86 | a pass restarts the trial at the target and the offset at the accepted one, and the preview is then current |
| Session.NudgeTrial | src/main.cpp:111-124 | a fine key moves only the trial, by its step modulo 2^64; if the preview was current, the offset moves the other way modulo 2^32 |
| Session.NudgeTrialShiftsOffsetCurrent | src/main.cpp:111-144 | from a current preview, recomputing after a trial move of delta gives the old offset minus delta, cast to `int32_t` |
| Session.NudgeTarget | src/main.cpp:126-129 | a coarse key moves the target modulo 2^64, restarts the trial at it and restores the accepted offset; nothing else changes |
| Session.SelectDrive | src/main.cpp:131-134 | a drive key changes only the drive strength when the preview is current |
| Session.SelectLoad | src/main.cpp:136-139 | a load key changes only the crystal load when the preview is current |
| Session.Reset | src/main.cpp:103-110 | `R` zeroes both offsets, restores 8 mA and 8 pF, restarts the trial at the unchanged target, and the preview is current |
| Session.Commit | src/main.cpp:101 | `q` makes the previewed offset the accepted one and changes nothing else |
| Apply.CrystalLoadRegister | src/main.cpp:154 | the value written to the crystal-load register selects the chosen load and keeps the reserved low bits 0b010010 |
| Apply.DriveLabel | src/main.cpp:201-218 | the drive label is a space, the milliamps in decimal, and "mA" |
| Apply.LoadLabel | src/main.cpp:220-237 | the load label is a space, the picofarads in decimal, and "pF" |
| Apply.LabelsDistinguish | src/main.cpp:201-237 | different drive strengths print different labels, and so do different loads |
| Apply.Revision | src/main.cpp:305-308 | the revision shown is the value of the two low status bits, `reg & 3`, so it is below 4 and zero exactly when both are clear |
| Apply.DecodeStatus | src/main.cpp:239-310 | the names `prt_status` prints for a status register: exact per bit by `DecodeStatusFlags` and `DecodeStatusRevision`, ordered by `DecodeStatusOrdered`, and inverted by `EncodeStatus` in `DecodeStatusRoundTrip` |
| Apply.DecodeStatusFlags | src/main.cpp:246-296 | each condition name appears on the status line if and only if its bit in the status register is set |
| Apply.DecodeStatusRevision | src/main.cpp:302-308 | the revision appears exactly when the low two bits are non-zero, and any revision shown is that field |
| Apply.DecodeStatusOrdered | src/main.cpp:258-308 | the names appear from bit 7 down to the revision field, each at most once |
| Apply.DecodeStatusRoundTrip | src/main.cpp:239-310 | re-encoding the names shown gives back every status bit except the reserved bit 2 |
| Apply.MegahertzField | src/main.cpp:169 | the megahertz figure fits the 16 bits of `uint16_t`; `MegahertzFieldBounds` pins it to the target in whole megahertz |
| Apply.MegahertzFieldBounds | src/main.cpp:169 | the megahertz shown is the target in whole megahertz, taken modulo 2^16 by the `uint16_t` cast |
| Apply.Report | src/main.cpp:164-177 | a status line shows the offset, a hex pattern that casts back to it, the truncated megahertz, the drive and load labels (milliamps and picofarads in decimal), and every status bit but bit 2, from bit 7 down, and REVID only with the non-zero revision field |
| Apply.ReportDistinguishes | src/main.cpp:164-177 | two equal status lines show the same offset, drive, load and status bits |
| Apply.SetCalFreq | src/main.cpp:151-180 | an apply is the six driver calls in order, then the error marker exactly when `set_freq` failed, then the status read, then exactly one status line, for the applied state; nothing else is emitted |
| Apply.ApplyEndsWithReport | src/main.cpp:164-177 | the last event of an apply is a status line, and it renders as the report of the applied state and the register read |
| Apply.Program | src/main.cpp:153-160 | the six driver calls of an apply; `SetCalFreqConfigures` shows what they leave on the chip, and `SetCalFreq` places them first in an apply |
| Apply.SetCalFreqConfigures | src/main.cpp:153-160 | after an apply the chip holds the state's load, drive and correction, PLL A fixed and reset, and the target unless `set_freq` failed |
| Interpreter.Parse | src/main.cpp:95-141 | the `switch` of `vfo_interface`: a bijection between the 28 dispatch keys and the known commands, by `KeyOfParse` and `ParseKeyOf`, with every other key ignored |
| Interpreter.ParseKeyOf | src/main.cpp:95-139 | every command some key stands for is read back from that key |
| Interpreter.KeyOfParse | src/main.cpp:95-141 | a key has a command exactly when it is one of the 28 dispatch keys, and that command's key is the key itself |
| Interpreter.SettingKeys | src/main.cpp:131-139 | keys 1-4 select 2, 4, 6 and 8 mA; keys 6-9 select 0, 6, 8 and 10 pF |
| Interpreter.KeysFollowLegend | src/main.cpp:87-89 | each legend column's keys move by that column's step, up and down, fine columns on the trial and coarse on the target, with the coarse steps read as 1M and 10M |
| Interpreter.PrintedLegendMisstatesCoarseKeys | src/main.cpp:89 | the printed legend matches the fine columns, and the keys move ten times the step printed under the two coarse columns |
| Interpreter.Execute | src/main.cpp:103-144 | every command but `q` leaves the preview current |
| Interpreter.Accept | src/main.cpp:143-146 | an accepted key never ends the pass and is followed by exactly one status line |
| Interpreter.Step | src/main.cpp:94-146 | only `q` ends the pass, and it commits the previewed offset. An unknown key changes nothing and prints nothing. A known key prints one status line and, unless it is `q`, leaves the preview current |
| Interpreter.FineKey | src/main.cpp:111-124 | a fine key moves only the trial, by its step modulo 2^64, and (from a current preview) the offset by minus the step modulo 2^32. It then applies the new state |
| Interpreter.CoarseKey | src/main.cpp:126-129 | a coarse key moves the target modulo 2^64, puts the trial on it, restores the accepted offset and applies the new state |
| Interpreter.SettingKey | src/main.cpp:131-146 | a drive or load key changes only that setting, keeps the offset and applies the new state |
| Interpreter.ResetKey | src/main.cpp:103-110 | `R` re-initialises the driver with the load chosen before it, resets the state to the defaults at the same target and applies it |
| Interpreter.QuitKey | src/main.cpp:97-102 | `q` applies the current state, including its correction, then accepts the offset and ends the pass |
| Interpreter.Feed | src/main.cpp:90-147 | a pass is committed exactly when `q` was among its keys, prints one status line per accepted key, and keeps the preview current until then |
| Interpreter.FeedStopsAtCommit | src/main.cpp:97-102 | the keys after `q` are discarded: the pass is the keys before it, then one apply and the commit |
| Interpreter.RepeatedFineKey | src/main.cpp:111-124 | n presses of one fine key move the trial by n steps modulo 2^64 and the offset by minus n steps modulo 2^32, with n status lines and no other change |
| Interpreter.Pass | src/main.cpp:83-149 | a pass without `q` leaves the preview current and uncommitted; a committed pass has accepted its offset |
| Interpreter.CommitIdempotent | src/main.cpp:97-102 | after a committed pass, the next pass starts with the committed offset, and pressing `q` at once accepts the same offset again |
| Interpreter.Boot | src/main.cpp:26-58 | `setup` leaves the start-up globals (20 MHz target, trial 0, both offsets 0, 8 mA, 8 pF), begins with the driver's `init` for that load, prints exactly one status line and commits nothing |
| Interpreter.BootConfigures | src/main.cpp:48-58 | after `setup` the chip holds 8 pF, 8 mA, zero correction, PLL A fixed and reset, and 20 MHz unless `set_freq` failed |
| Interpreter.Loop | src/main.cpp:60-75 | every round polls the status first. While the device initialises, a round only warns: it makes no other driver call and changes nothing. Otherwise the round makes the calls of one pass over the keys and ends where that pass ends, with its status lines and commit |
| Scenarios.FiveFinestSteps | src/main.cpp:111 | five presses of `r` from start-up give trial 2000000005 and offset -5 with five status lines |
| Scenarios.CommitCarriesOver | src/main.cpp:97-102 | `rrrrrq` accepts -5, and the next pass starts at the 20 MHz target with -5 in force |
| Scenarios.NextPassAfterCommit | src/main.cpp:85-86 | in that next pass one more `r` gives trial 2000000001 and offset -6 |
| Scenarios.DriveKeyFromStart | src/main.cpp:131 | key `1` at start-up selects 2 mA and applies exactly that state |
| Scenarios.StartupLine | src/main.cpp:164-177 | the start-up status line shows offset 0, 20 MHz, " 8mA" and " 8pF" |
| Scenarios.NegativeOffsetLine | src/main.cpp:165-167 | offset -5 prints in hex as 0xFFFFFFFB |
| Scenarios.LetterWithoutCommandIgnored | src/main.cpp:141 | a key outside the dispatch leaves the state alone and prints nothing |
| Scenarios.DigitFiveIgnored | src/main.cpp:141 | the digit 5, between the drive and load keys, is ignored |
| Scenarios.TargetWrapsBelowZero | src/main.cpp:127 | `[` at a 0.5 MHz target wraps the unsigned target to 2^64 - 50000000 |
| Scenarios.CoarseStepFromStart | src/main.cpp:126 | `]` at start-up moves target and trial to 21 MHz and keeps the offset at 0 |

## Left out

- Serial bring-up, the waits for the port and the `delay` calls have no effect on the state.
- Polling `Serial.available` is left out. A pass is modelled as a finite key sequence. A sequence that ends without `q` is a pass still in progress.
- `flush_input` is modelled by discarding the keys after `q`.
- The text of the prompts, the key legend and the initialisation warning is left out. The prompts and the key legend together appear as one `Banner` event; the initialisation warning as `InitWarning`. The "Use: " prefix printed before the final apply at `q` is dropped and has no event. The prompt's "10 MHz" does not match the 20 MHz target, but that is wording only.
- `printHz` is not modelled. Its only call is commented out, so it is dead code.
- Apply.Report: the calibration line is modelled as its fields, not as the exact characters printed.
- Apply.SetCalFreq: the status-register read is recorded before the status line. In the source it happens while the line is printed, after the drive and load labels. The line is recorded as the state shown plus the register read, and `Line` renders it.
- MachineInt.AddInt32: the `int32_t` addition at line 144 has undefined behaviour on overflow in C++. It is modelled as two's-complement wrap.
- Driver: the Si5351 library and its header are not part of this model.
  - Its calls are data, and their effect is the abstract `Chip` record. Register-level PLL and multisynth arithmetic is left out.
  - `init`'s other arguments are left out.
  - The crystal-load codes and the reserved bits follow the Si5351 register map: register 183, XTAL_CL in bits 7:6.
- Interpreter.Loop: the SYS_INIT bit of the `update_status` poll is an input.

## Findings

| source | as written | input that shows it | evidently intended | confidence | as-written member | corrected member |
|---|---|---|---|---|---|---|
| src/main.cpp:89 | the legend prints "100K 1M" under the coarse columns `]`/`[` and `}`/`{` | key `]` moves the target by 100000000 hundredths of a hertz, i.e. 1 MHz, not 100 kHz | "1M 10M", as the comments at lines 126 and 128 say | high (not executed) | Interpreter.PrintedLegendMisstatesCoarseKeys | Interpreter.KeysFollowLegend |

=== FILE: apply.dfy ===
/**
 * Apply and report (`set_cal_freq`, `prt_drive`, `prt_load`, `prt_status`):
 * the fixed order of driver calls that pushes a session state to the chip,
 * and the status line printed afterwards.
 */
module Apply {
  import opened MachineInt
  import opened Wrappers
  import opened Driver
  import opened Session

  /** Bits 5:0 of the crystal-load register must be written as 0b010010. */
  const CRYSTAL_LOAD_RESERVED: bv8 := 0x12

  /** The value written to the crystal-load register for a load capacitance. */
  function CrystalLoadRegister(l: Load): (v: bv8)
    ensures LoadOfRegister(v) == l
    ensures v & 0x3F == CRYSTAL_LOAD_RESERVED
  {
    (LoadCode(l) & CRYSTAL_LOAD_MASK) | CRYSTAL_LOAD_RESERVED
  }

  // ----- labels -----

  function Digit(d: nat): char
    requires d < 10
  {
    "0123456789"[d]
  }

  /** The decimal digits of `n`, as `Serial.print` writes an unsigned number. */
  function Decimal(n: nat): string
    decreases n
  {
    if n < 10 then [Digit(n)] else Decimal(n / 10) + [Digit(n % 10)]
  }

  /** `prt_drive`: the label names the drive strength in milliamps. */
  function DriveLabel(d: Drive): (r: string)
    ensures r == " " + Decimal(Milliamps(d)) + "mA"
  {
    match d
    case Drive2mA => " 2mA"
    case Drive4mA => " 4mA"
    case Drive6mA => " 6mA"
    case Drive8mA => " 8mA"
  }

  /** `prt_load`: the label names the load capacitance in picofarads. */
  function LoadLabel(l: Load): (r: string)
    ensures r == " " + Decimal(Picofarads(l)) + "pF"
  {
    match l
    case Load0pF => " 0pF"
    case Load6pF => " 6pF"
    case Load8pF => " 8pF"
    case Load10pF => " 10pF"
  }

  /** Different drive strengths get different labels, and so do different loads. */
  lemma LabelsDistinguish(d1: Drive, d2: Drive, l1: Load, l2: Load)
    ensures DriveLabel(d1) == DriveLabel(d2) ==> d1 == d2
    ensures LoadLabel(l1) == LoadLabel(l2) ==> l1 == l2
  {
    if DriveLabel(d1) == DriveLabel(d2) {
      assert DriveLabel(d1)[1] == DriveLabel(d2)[1];
    }
    if LoadLabel(l1) == LoadLabel(l2) {
      assert |LoadLabel(l1)| == |LoadLabel(l2)|;
      assert LoadLabel(l1)[1] == LoadLabel(l2)[1];
    }
  }

  // ----- device status -----

  /** A flag `prt_status` prints from the device status register. */
  datatype StatusFlag = SysInit | LolA | LolB | LosClkin | LosXtal | RevId(revision: nat)

  /** The bit position a flag is read from (REVID occupies bits 1:0). */
  function FlagBit(f: StatusFlag): nat
  {
    match f
    case SysInit => 7
    case LolA => 6
    case LolB => 5
    case LosClkin => 4
    case LosXtal => 3
    case RevId(_) => 0
  }

  /** The revision number in bits 1:0, as `Serial.print(reg_val & 3)` shows it. */
  function Revision(reg: bv8): (n: nat)
    ensures n < 4
    ensures n == 0 <==> reg & 0x03 == 0
    ensures n == (reg & 0x03) as nat
  {
    var bits := reg & 0x03;
    if bits == 1 then 1 else if bits == 2 then 2 else if bits == 3 then 3 else 0
  }

  function Flag(present: bool, f: StatusFlag): seq<StatusFlag>
  {
    if present then [f] else []
  }

  /** The five condition flags, printed only when one of bits 7..3 is set. */
  function Conditions(reg: bv8): seq<StatusFlag>
  {
    if reg & 0xF8 != 0 then
      Flag(reg & 0x80 != 0, SysInit) + Flag(reg & 0x40 != 0, LolA) + Flag(reg & 0x20 != 0, LolB)
      + Flag(reg & 0x10 != 0, LosClkin) + Flag(reg & 0x08 != 0, LosXtal)
    else []
  }

  /** `prt_status`: the condition flags, then the revision when bits 1:0 are not zero. */
  function DecodeStatus(reg: bv8): (r: seq<StatusFlag>)
  {
    Conditions(reg) + Flag(Revision(reg) != 0, RevId(Revision(reg)))
  }

  /**
   * Each condition flag is printed exactly when its bit is set: the guard on
   * bits 7..3 never hides a set bit.
   */
  lemma DecodeStatusFlags(reg: bv8)
    ensures SysInit in DecodeStatus(reg) <==> reg & 0x80 != 0
    ensures LolA in DecodeStatus(reg) <==> reg & 0x40 != 0
    ensures LolB in DecodeStatus(reg) <==> reg & 0x20 != 0
    ensures LosClkin in DecodeStatus(reg) <==> reg & 0x10 != 0
    ensures LosXtal in DecodeStatus(reg) <==> reg & 0x08 != 0
  {
    var c, rev := Conditions(reg), Flag(Revision(reg) != 0, RevId(Revision(reg)));
    assert DecodeStatus(reg) == c + rev;
    assert forall f: StatusFlag :: f in c + rev && !f.RevId? ==> f in c;
    ConditionsUpper(reg);
    ConditionsLower(reg);
  }

  lemma ConditionsUpper(reg: bv8)
    ensures SysInit in Conditions(reg) <==> reg & 0x80 != 0
    ensures LolA in Conditions(reg) <==> reg & 0x40 != 0
    ensures LolB in Conditions(reg) <==> reg & 0x20 != 0
  {
    assert reg & 0xF8 == 0 ==> reg & 0x80 == 0 && reg & 0x40 == 0 && reg & 0x20 == 0;
  }

  lemma ConditionsLower(reg: bv8)
    ensures LosClkin in Conditions(reg) <==> reg & 0x10 != 0
    ensures LosXtal in Conditions(reg) <==> reg & 0x08 != 0
  {
    assert reg & 0xF8 == 0 ==> reg & 0x10 == 0 && reg & 0x08 == 0;
  }

  /** REVID is printed exactly when bits 1:0 are not zero, last, with their value. */
  lemma DecodeStatusRevision(reg: bv8)
    ensures reg & 0x03 != 0 <==> RevId(Revision(reg)) in DecodeStatus(reg)
    ensures forall i :: 0 <= i < |DecodeStatus(reg)| && DecodeStatus(reg)[i].RevId? ==>
      i == |DecodeStatus(reg)| - 1 && DecodeStatus(reg)[i].revision == Revision(reg) > 0
  {
    var c := Conditions(reg);
    assert forall i :: 0 <= i < |c| ==> !c[i].RevId?;
  }

  predicate Descending(r: seq<StatusFlag>)
  {
    forall i, j :: 0 <= i < j < |r| ==> FlagBit(r[i]) > FlagBit(r[j])
  }

  /** Every flag of `r` sits in a bit between `lo` and `hi`. */
  predicate Within(r: seq<StatusFlag>, lo: nat, hi: nat)
  {
    forall i :: 0 <= i < |r| ==> lo <= FlagBit(r[i]) <= hi
  }

  lemma WithinAppend(a: seq<StatusFlag>, b: seq<StatusFlag>, lo: nat, hi: nat)
    requires Within(a, lo, hi) && Within(b, lo, hi)
    ensures Within(a + b, lo, hi)
  {
    forall i | 0 <= i < |a + b|
      ensures lo <= FlagBit((a + b)[i]) <= hi
    {
      if i < |a| {
        assert (a + b)[i] == a[i];
      } else {
        assert (a + b)[i] == b[i - |a|];
      }
    }
  }

  lemma FlagOrdered(present: bool, f: StatusFlag)
    ensures Descending(Flag(present, f))
    ensures Within(Flag(present, f), FlagBit(f), FlagBit(f))
  {
  }

  lemma DescendingAppend(a: seq<StatusFlag>, b: seq<StatusFlag>, k: nat)
    requires Descending(a) && Descending(b)
    requires Within(a, k + 1, 7) && Within(b, 0, k)
    ensures Descending(a + b)
  {
    forall i, j | 0 <= i < j < |a + b|
      ensures FlagBit((a + b)[i]) > FlagBit((a + b)[j])
    {
      if j < |a| {
        assert (a + b)[i] == a[i] && (a + b)[j] == a[j];
      } else if i >= |a| {
        assert (a + b)[i] == b[i - |a|] && (a + b)[j] == b[j - |a|];
      } else {
        assert (a + b)[i] == a[i] && (a + b)[j] == b[j - |a|];
      }
    }
  }

  /** The flags come out in descending bit order, SYS_INIT first. */
  lemma DecodeStatusOrdered(reg: bv8)
    ensures Descending(DecodeStatus(reg))
  {
    var c := Conditions(reg);
    if reg & 0xF8 != 0 {
      ConditionsOrdered(reg & 0x80 != 0, reg & 0x40 != 0, reg & 0x20 != 0, reg & 0x10 != 0, reg & 0x08 != 0);
    }
    assert Descending(c) && Within(c, 3, 7);
    FlagOrdered(Revision(reg) != 0, RevId(Revision(reg)));
    DescendingAppend(c, Flag(Revision(reg) != 0, RevId(Revision(reg))), 2);
  }

  lemma ConditionsOrdered(b7: bool, b6: bool, b5: bool, b4: bool, b3: bool)
    ensures var c := Flag(b7, SysInit) + Flag(b6, LolA) + Flag(b5, LolB) + Flag(b4, LosClkin) + Flag(b3, LosXtal);
      Descending(c) && Within(c, 3, 7)
  {
    var a7 := Flag(b7, SysInit);
    FlagOrdered(b7, SysInit);
    var a6 := a7 + Flag(b6, LolA);
    ExtendOrdered(a7, b6, LolA);
    var a5 := a6 + Flag(b5, LolB);
    ExtendOrdered(a6, b5, LolB);
    var a4 := a5 + Flag(b4, LosClkin);
    ExtendOrdered(a5, b4, LosClkin);
    ExtendOrdered(a4, b3, LosXtal);
  }

  lemma ExtendOrdered(a: seq<StatusFlag>, present: bool, f: StatusFlag)
    requires 3 <= FlagBit(f) < 7
    requires Descending(a) && Within(a, FlagBit(f) + 1, 7)
    ensures Descending(a + Flag(present, f)) && Within(a + Flag(present, f), FlagBit(f), 7)
  {
    FlagOrdered(present, f);
    DescendingAppend(a, Flag(present, f), FlagBit(f));
    WithinAppend(a, Flag(present, f), FlagBit(f), 7);
  }

  /** The register bits a flag stands for. */
  function FlagBits(f: StatusFlag): bv8
  {
    match f
    case SysInit => 0x80
    case LolA => 0x40
    case LolB => 0x20
    case LosClkin => 0x10
    case LosXtal => 0x08
    case RevId(n) => if n == 1 then 0x01 else if n == 2 then 0x02 else if n == 3 then 0x03 else 0x00
  }

  /** The register bits a list of flags stands for. */
  function EncodeStatus(flags: seq<StatusFlag>): bv8
    decreases |flags|
  {
    if |flags| == 0 then 0 else FlagBits(flags[0]) | EncodeStatus(flags[1..])
  }

  lemma {:induction false} EncodeStatusAppend(a: seq<StatusFlag>, b: seq<StatusFlag>)
    ensures EncodeStatus(a + b) == EncodeStatus(a) | EncodeStatus(b)
    decreases |a|
  {
    if |a| == 0 {
      assert a + b == b;
    } else {
      assert (a + b)[0] == a[0];
      assert (a + b)[1..] == a[1..] + b;
      EncodeStatusAppend(a[1..], b);
    }
  }

  function FlagValue(present: bool, f: StatusFlag): bv8
  {
    if present then FlagBits(f) else 0
  }

  lemma EncodeFlag(present: bool, f: StatusFlag)
    ensures EncodeStatus(Flag(present, f)) == FlagValue(present, f)
  {
    if present {
      assert Flag(present, f)[1..] == [];
    }
  }

  /** The printed flags give back every status bit except the reserved bit 2. */
  lemma DecodeStatusRoundTrip(reg: bv8)
    ensures EncodeStatus(DecodeStatus(reg)) == reg & 0xFB
  {
    EncodeStatusAppend(Conditions(reg), Flag(Revision(reg) != 0, RevId(Revision(reg))));
    EncodeConditions(reg);
    EncodeFlag(Revision(reg) != 0, RevId(Revision(reg)));
    RevisionBits(reg);
    assert (reg & 0xF8) | (reg & 0x03) == reg & 0xFB;
  }

  /** The condition flags give back bits 7..3. */
  lemma EncodeConditions(reg: bv8)
    ensures EncodeStatus(Conditions(reg)) == reg & 0xF8
  {
    var f7, f6, f5 := Flag(reg & 0x80 != 0, SysInit), Flag(reg & 0x40 != 0, LolA), Flag(reg & 0x20 != 0, LolB);
    var f4, f3 := Flag(reg & 0x10 != 0, LosClkin), Flag(reg & 0x08 != 0, LosXtal);
    if reg & 0xF8 != 0 {
      EncodeFlag(reg & 0x80 != 0, SysInit);
      EncodeFlag(reg & 0x40 != 0, LolA);
      EncodeFlag(reg & 0x20 != 0, LolB);
      EncodeFlag(reg & 0x10 != 0, LosClkin);
      EncodeFlag(reg & 0x08 != 0, LosXtal);
      EncodeStatusAppend(f7, f6);
      EncodeStatusAppend(f7 + f6, f5);
      EncodeStatusAppend(f7 + f6 + f5, f4);
      EncodeStatusAppend(f7 + f6 + f5 + f4, f3);
      ConditionBits(reg);
    }
  }

  /** Bits 7..3, one condition flag at a time. */
  lemma ConditionBits(reg: bv8)
    ensures FlagValue(reg & 0x80 != 0, SysInit) | FlagValue(reg & 0x40 != 0, LolA) | FlagValue(reg & 0x20 != 0, LolB)
      | FlagValue(reg & 0x10 != 0, LosClkin) | FlagValue(reg & 0x08 != 0, LosXtal) == reg & 0xF8
  {
    assert FlagValue(reg & 0x80 != 0, SysInit) == reg & 0x80;
    assert FlagValue(reg & 0x40 != 0, LolA) == reg & 0x40;
    assert FlagValue(reg & 0x20 != 0, LolB) == reg & 0x20;
    assert FlagValue(reg & 0x10 != 0, LosClkin) == reg & 0x10;
    assert FlagValue(reg & 0x08 != 0, LosXtal) == reg & 0x08;
    assert (reg & 0x80) | (reg & 0x40) | (reg & 0x20) | (reg & 0x10) | (reg & 0x08) == reg & 0xF8;
  }

  /** The revision flag gives back bits 1:0. */
  lemma RevisionBits(reg: bv8)
    ensures FlagValue(Revision(reg) != 0, RevId(Revision(reg))) == reg & 0x03
  {
  }

  // ----- the status line -----

  /** One megahertz in hundredths of a hertz. */
  const MHZ: nat := 100000000

  /** The `uint16_t` megahertz figure: whole megahertz of the target, modulo 2^16. */
  function MegahertzField(target: U64): (r: nat)
    ensures r < 0x1_0000
  {
    (target / MHZ) % 0x1_0000
  }

  /**
   * The megahertz figure is the whole number of megahertz in the target,
   * once the target is taken modulo 2^16 MHz.
   */
  lemma MegahertzFieldBounds(target: U64)
    ensures var r := MegahertzField(target);
      r * MHZ <= target % (0x1_0000 * MHZ) < (r + 1) * MHZ
  {
    var q, t := target / MHZ, target % MHZ;
    var k, r := q / 0x1_0000, q % 0x1_0000;
    assert target == q * MHZ + t;
    assert q * MHZ == k * (0x1_0000 * MHZ) + r * MHZ;
    assert 0 <= r * MHZ + t < 0x1_0000 * MHZ;
    assert target % (0x1_0000 * MHZ) == r * MHZ + t;
  }

  /** The status line: offset in decimal and hexadecimal, megahertz, labels, flags. */
  datatype StatusLine = StatusLine(
    calibration: I32,
    calibrationHex: U32,
    megahertz: nat,
    drive: string,
    load: string,
    flags: seq<StatusFlag>)

  function Report(s: State, status: bv8): (line: StatusLine)
    ensures line.calibration == s.cal
    ensures ToInt32(line.calibrationHex) == s.cal
    ensures line.megahertz * MHZ <= s.target % (0x1_0000 * MHZ) < (line.megahertz + 1) * MHZ
    ensures EncodeStatus(line.flags) == status & 0xFB
    ensures Descending(line.flags)
    ensures line.drive == " " + Decimal(Milliamps(s.drive)) + "mA"
    ensures line.load == " " + Decimal(Picofarads(s.load)) + "pF"
    ensures forall i :: 0 <= i < |line.flags| && line.flags[i].RevId? ==>
      line.flags[i].revision == Revision(status) > 0
  {
    MegahertzFieldBounds(s.target);
    Uint32RoundTrip(s.cal);
    DecodeStatusRoundTrip(status);
    DecodeStatusOrdered(status);
    DecodeStatusRevision(status);
    StatusLine(s.cal, ToUint32(s.cal), MegahertzField(s.target), DriveLabel(s.drive), LoadLabel(s.load), DecodeStatus(status))
  }

  /** Two equal status lines show the same offset, drive, load and status bits. */
  lemma ReportDistinguishes(s1: State, s2: State, st1: bv8, st2: bv8)
    requires Report(s1, st1) == Report(s2, st2)
    ensures s1.cal == s2.cal && s1.drive == s2.drive && s1.load == s2.load
    ensures st1 & 0xFB == st2 & 0xFB
  {
    LabelsDistinguish(s1.drive, s2.drive, s1.load, s2.load);
  }

  // ----- apply -----

  /**
   * What the program emits: a driver call, or a line of output. A status
   * line is recorded by the state it shows and the status register read for
   * it; `Line` renders it.
   */
  datatype Event =
    | DriverCall(call: Driver.Call)
    | FrequencyError
    | Status(shown: State, register: bv8)
    | InitWarning
    | Banner

  /** The text of a status line event. */
  function Line(e: Event): StatusLine
    requires e.Status?
  {
    Report(e.shown, e.register)
  }

  /** The driver's answers to one apply: `set_freq`'s failure flag and the status register. */
  datatype Reply = Reply(freqFailed: bool, status: bv8)

  /** The driver calls among the events, in order. */
  function Calls(events: seq<Event>): (r: seq<Driver.Call>)
    ensures |r| <= |events|
    decreases |events|
  {
    if |events| == 0 then []
    else (if events[0].DriverCall? then [events[0].call] else []) + Calls(events[1..])
  }

  /** How many status lines the events print. */
  function Reports(events: seq<Event>): nat
    decreases |events|
  {
    if |events| == 0 then 0
    else (if events[0].Status? then 1 else 0) + Reports(events[1..])
  }

  lemma {:induction false} CallsAppend(a: seq<Event>, b: seq<Event>)
    ensures Calls(a + b) == Calls(a) + Calls(b)
    decreases |a|
  {
    if |a| == 0 {
      assert a + b == b;
    } else {
      assert (a + b)[0] == a[0];
      assert (a + b)[1..] == a[1..] + b;
      CallsAppend(a[1..], b);
    }
  }

  lemma {:induction false} ReportsAppend(a: seq<Event>, b: seq<Event>)
    ensures Reports(a + b) == Reports(a) + Reports(b)
    decreases |a|
  {
    if |a| == 0 {
      assert a + b == b;
    } else {
      assert (a + b)[0] == a[0];
      assert (a + b)[1..] == a[1..] + b;
      ReportsAppend(a[1..], b);
    }
  }

  /** The events of making the given driver calls. */
  function AsEvents(calls: seq<Driver.Call>): (r: seq<Event>)
    ensures Calls(r) == calls && |r| == |calls|
    ensures Reports(r) == 0
    ensures FrequencyError !in r
    decreases |calls|
  {
    if |calls| == 0 then []
    else
      var r := [DriverCall(calls[0])] + AsEvents(calls[1..]);
      CallsAppend([DriverCall(calls[0])], AsEvents(calls[1..]));
      ReportsAppend([DriverCall(calls[0])], AsEvents(calls[1..]));
      r
  }

  /** The six driver calls of an apply, in the order the hardware needs them. */
  function Program(s: State, freqFailed: bool): seq<Driver.Call>
  {
    [ WriteRegister(CRYSTAL_LOAD_REGISTER, CrystalLoadRegister(s.load)),
      DriveStrength(s.drive),
      SetCorrection(s.cal),
      SetPllFixed,
      ResetPll,
      SetFrequency(s.target, freqFailed) ]
  }

  /**
   * `set_cal_freq`: the six calls, the error marker only when `set_freq`
   * fails, and then, in every case, the status read and one status line.
   */
  function SetCalFreq(s: State, reply: Reply): (r: seq<Event>)
    ensures Calls(r) == Program(s, reply.freqFailed) + [ReadRegister(DEVICE_STATUS_REGISTER, reply.status)]
    ensures FrequencyError in r <==> reply.freqFailed
    ensures Reports(r) == 1 && r[|r| - 1] == Status(s, reply.status)
    ensures |r| == 8 + (if reply.freqFailed then 1 else 0)
    ensures Calls(r[..6]) == Program(s, reply.freqFailed)
    ensures reply.freqFailed ==> r[6] == FrequencyError
    ensures r[|r| - 2] == DriverCall(ReadRegister(DEVICE_STATUS_REGISTER, reply.status))
  {
    var calls := AsEvents(Program(s, reply.freqFailed));
    var error := if reply.freqFailed then [FrequencyError] else [];
    var report := [DriverCall(ReadRegister(DEVICE_STATUS_REGISTER, reply.status)), Status(s, reply.status)];
    CallsAppend(calls, error);
    CallsAppend(calls + error, report);
    CallsAppend([report[0]], [report[1]]);
    ReportsAppend(calls, error);
    ReportsAppend(calls + error, report);
    ReportsAppend([report[0]], [report[1]]);
    assert report == [report[0]] + [report[1]];
    assert (calls + error + report)[..6] == calls;
    calls + error + report
  }

  /** The status line an apply ends with is the report of the applied state and the register read. */
  lemma ApplyEndsWithReport(s: State, reply: Reply)
    ensures var r := SetCalFreq(s, reply);
      r[|r| - 1].Status? && Line(r[|r| - 1]) == Report(s, reply.status)
  {
  }

  /**
   * What an apply achieves, whatever the chip held before: the crystal load,
   * drive strength and correction of the state, PLL A in fixed mode and reset
   * after its last change, and the target frequency unless `set_freq` failed.
   */
  lemma SetCalFreqConfigures(chip: Chip, s: State, reply: Reply)
    ensures PerformAll(chip, Calls(SetCalFreq(s, reply))) ==
      Chip(Some(CrystalLoadRegister(s.load)), Some(s.drive), Some(s.cal), true, true,
           if reply.freqFailed then chip.frequency else Some(s.target))
  {
    var read := ReadRegister(DEVICE_STATUS_REGISTER, reply.status);
    PerformAllAppend(chip, Program(s, reply.freqFailed), [read]);
    ProgramConfigures(chip, s, reply.freqFailed);
    PerformAllCons(PerformAll(chip, Program(s, reply.freqFailed)), read, []);
  }

  /** The six calls of an apply, without the status read that follows them. */
  lemma ProgramConfigures(chip: Chip, s: State, freqFailed: bool)
    ensures PerformAll(chip, Program(s, freqFailed)) ==
      Chip(Some(CrystalLoadRegister(s.load)), Some(s.drive), Some(s.cal), true, true,
           if freqFailed then chip.frequency else Some(s.target))
  {
    var p := Program(s, freqFailed);
    var first, second := [p[0], p[1], p[2]], [p[3], p[4], p[5]];
    assert p == first + second;
    PerformAllAppend(chip, first, second);
    PerformAllThree(chip, p[0], p[1], p[2]);
    PerformAllThree(PerformAll(chip, first), p[3], p[4], p[5]);
  }
}

=== FILE: driver.dfy ===
/**
 * The Si5351 driver the sketch calls, seen from outside: the two hardware
 * parameters it is handed, the record of each call (with the driver's answer,
 * where it gives one), and an abstract picture of what a sequence of calls
 * leaves configured in the chip. The driver's own internals are not modelled.
 */
module Driver {
  import opened MachineInt
  import opened Wrappers

  /** Output drive strength of CLK0. */
  datatype Drive = Drive2mA | Drive4mA | Drive6mA | Drive8mA

  /** Crystal load capacitance. */
  datatype Load = Load0pF | Load6pF | Load8pF | Load10pF

  function Milliamps(d: Drive): nat
  {
    match d
    case Drive2mA => 2
    case Drive4mA => 4
    case Drive6mA => 6
    case Drive8mA => 8
  }

  function Picofarads(l: Load): nat
  {
    match l
    case Load0pF => 0
    case Load6pF => 6
    case Load8pF => 8
    case Load10pF => 10
  }

  /** Register 183 holds the crystal load in bits 7:6. */
  const CRYSTAL_LOAD_REGISTER: nat := 183
  const CRYSTAL_LOAD_MASK: bv8 := 0xC0
  /** Register 0 holds the device status bits. */
  const DEVICE_STATUS_REGISTER: nat := 0

  /** The driver's code for a load capacitance: the XTAL_CL field in bits 7:6. */
  function LoadCode(l: Load): bv8
  {
    match l
    case Load0pF => 0x00
    case Load6pF => 0x40
    case Load8pF => 0x80
    case Load10pF => 0xC0
  }

  /** The load capacitance a crystal-load register value selects. */
  function LoadOfRegister(v: bv8): Load
  {
    var field := v & CRYSTAL_LOAD_MASK;
    if field == 0x40 then Load6pF
    else if field == 0x80 then Load8pF
    else if field == 0xC0 then Load10pF
    else Load0pF
  }

  /**
   * One call into the driver. `SetFrequency` records whether the driver
   * reported failure; `ReadRegister` and `UpdateStatus` record what was read.
   * The fixed arguments of the sketch's calls (output CLK0, PLL A, the
   * crystal reference, the fixed PLL frequency) are implied by the constructor.
   */
  datatype Call =
    | Init(load: Load)
    | WriteRegister(register: nat, value: bv8)
    | DriveStrength(drive: Drive)
    | SetCorrection(correction: I32)
    | SetPllFixed
    | ResetPll
    | SetFrequency(frequency: U64, failed: bool)
    | ReadRegister(register: nat, read: bv8)
    | UpdateStatus(sysInit: bool)

  /**
   * What the sketch has configured in the chip, as far as the calls show it.
   * `pllSettled` holds when PLL A has been reset since its correction or
   * feedback mode last changed.
   */
  datatype Chip = Chip(
    loadRegister: Option<bv8>,
    drive: Option<Drive>,
    correction: Option<I32>,
    pllFixed: bool,
    pllSettled: bool,
    frequency: Option<U64>)

  /** The chip right after `init`: nothing the sketch configures is known yet. */
  const Unconfigured := Chip(None, None, None, false, false, None)

  function Perform(chip: Chip, call: Call): Chip
  {
    match call
    case Init(_) => Unconfigured
    case WriteRegister(register, value) =>
      if register == CRYSTAL_LOAD_REGISTER then chip.(loadRegister := Some(value)) else chip
    case DriveStrength(d) => chip.(drive := Some(d))
    case SetCorrection(c) => chip.(correction := Some(c), pllSettled := false)
    case SetPllFixed => chip.(pllFixed := true, pllSettled := false)
    case ResetPll => chip.(pllSettled := true)
    case SetFrequency(f, failed) => if failed then chip else chip.(frequency := Some(f))
    case ReadRegister(_, _) => chip
    case UpdateStatus(_) => chip
  }

  /** The chip after a sequence of calls, in order. */
  function PerformAll(chip: Chip, calls: seq<Call>): Chip
    decreases |calls|
  {
    if |calls| == 0 then chip else PerformAll(Perform(chip, calls[0]), calls[1..])
  }

  lemma PerformAllCons(chip: Chip, call: Call, rest: seq<Call>)
    ensures PerformAll(chip, [call] + rest) == PerformAll(Perform(chip, call), rest)
  {
    assert ([call] + rest)[1..] == rest;
  }

  lemma PerformAllThree(chip: Chip, a: Call, b: Call, c: Call)
    ensures PerformAll(chip, [a, b, c]) == Perform(Perform(Perform(chip, a), b), c)
  {
    PerformAllCons(chip, a, [b, c]);
    PerformAllCons(Perform(chip, a), b, [c]);
    PerformAllCons(Perform(Perform(chip, a), b), c, []);
  }

  lemma {:induction false} PerformAllAppend(chip: Chip, a: seq<Call>, b: seq<Call>)
    ensures PerformAll(chip, a + b) == PerformAll(PerformAll(chip, a), b)
    decreases |a|
  {
    if |a| > 0 {
      assert (a + b)[1..] == a[1..] + b;
      PerformAllAppend(Perform(chip, a[0]), a[1..], b);
    } else {
      assert a + b == b;
    }
  }
}

=== FILE: interpreter.dfy ===
/**
 * The command interpreter (`vfo_interface`, `loop`, `setup`): one key at a
 * time is decoded, applied to the session state and followed by one apply
 * and status line; `q` commits the offset and ends the pass.
 */
module Interpreter {
  import opened MachineInt
  import opened Wrappers
  import opened Driver
  import opened Session
  import opened Apply

  /** What a recognised key asks for. */
  datatype Command =
    | Quit                     // commit the offset and leave the pass
    | Reinitialise             // full reset, driver included
    | NudgeRx(delta: int)      // move the trial frequency
    | MoveTarget(delta: int)   // move the target and restart the trial at it
    | PickDrive(drive: Drive)
    | PickLoad(load: Load)

  /** Every key the dispatch recognises. */
  const KEYS: string := "qRrftgyhujikolp;][}{12346789"

  /** The fine steps, 0.01 Hz to 10 kHz, in hundredths of a hertz. */
  const FINE_STEPS: seq<nat> := [1, 10, 100, 1000, 10000, 100000, 1000000]
  /** The coarse steps, 1 MHz and 10 MHz, in hundredths of a hertz. */
  const COARSE_STEPS: seq<nat> := [100000000, 1000000000]

  /** The dispatch of `vfo_interface`: the command a key stands for, if any. */
  function Parse(c: char): Option<Command>
  {
    match c
    case 'q' => Some(Quit)
    case 'R' => Some(Reinitialise)
    case 'r' => Some(NudgeRx(1))
    case 'f' => Some(NudgeRx(-1))
    case 't' => Some(NudgeRx(10))
    case 'g' => Some(NudgeRx(-10))
    case 'y' => Some(NudgeRx(100))
    case 'h' => Some(NudgeRx(-100))
    case 'u' => Some(NudgeRx(1000))
    case 'j' => Some(NudgeRx(-1000))
    case 'i' => Some(NudgeRx(10000))
    case 'k' => Some(NudgeRx(-10000))
    case 'o' => Some(NudgeRx(100000))
    case 'l' => Some(NudgeRx(-100000))
    case 'p' => Some(NudgeRx(1000000))
    case ';' => Some(NudgeRx(-1000000))
    case ']' => Some(MoveTarget(100000000))
    case '[' => Some(MoveTarget(-100000000))
    case '}' => Some(MoveTarget(1000000000))
    case '{' => Some(MoveTarget(-1000000000))
    case '1' => Some(PickDrive(Drive2mA))
    case '2' => Some(PickDrive(Drive4mA))
    case '3' => Some(PickDrive(Drive6mA))
    case '4' => Some(PickDrive(Drive8mA))
    case '6' => Some(PickLoad(Load0pF))
    case '7' => Some(PickLoad(Load6pF))
    case '8' => Some(PickLoad(Load8pF))
    case '9' => Some(PickLoad(Load10pF))
    case _ => None
  }

  /** The commands some key stands for. */
  predicate Known(cmd: Command)
  {
    match cmd
    case NudgeRx(d) => d in FINE_STEPS || -d in FINE_STEPS
    case MoveTarget(d) => d in COARSE_STEPS || -d in COARSE_STEPS
    case _ => true
  }

  /** The key for a command, as the banner lays the keys out. */
  function KeyOf(cmd: Command): char
    requires Known(cmd)
  {
    match cmd
    case Quit => 'q'
    case Reinitialise => 'R'
    case NudgeRx(d) =>
      if d > 0 then LEGEND_UP[FineColumn(d)] else LEGEND_DOWN[FineColumn(-d)]
    case MoveTarget(d) =>
      if d > 0 then LEGEND_UP[CoarseColumn(d)] else LEGEND_DOWN[CoarseColumn(-d)]
    case PickDrive(d) => "1234"[Milliamps(d) / 2 - 1]
    case PickLoad(l) => "6789"[LoadColumn(l)]
  }

  /** The legend column of a fine step. */
  function FineColumn(d: int): (i: nat)
    requires d in FINE_STEPS
    ensures i < 7 && LEGEND_STEPS[i] == d
  {
    if d == 1 then 0 else if d == 10 then 1 else if d == 100 then 2 else if d == 1000 then 3
    else if d == 10000 then 4 else if d == 100000 then 5 else 6
  }

  /** The legend column of a coarse step. */
  function CoarseColumn(d: int): (i: nat)
    requires d in COARSE_STEPS
    ensures 7 <= i < 9 && LEGEND_STEPS[i] == d
  {
    if d == 100000000 then 7 else 8
  }

  function LoadColumn(l: Load): nat
  {
    match l
    case Load0pF => 0
    case Load6pF => 1
    case Load8pF => 2
    case Load10pF => 3
  }

  /** Every recognised command has a key, and decoding that key gives the command back. */
  lemma ParseKeyOf(cmd: Command)
    requires Known(cmd)
    ensures Parse(KeyOf(cmd)) == Some(cmd)
  {
    match cmd
    case NudgeRx(d) =>
      if d > 0 { FineUpKeyOf(d); } else { FineDownKeyOf(-d); }
    case MoveTarget(d) =>
    case PickDrive(d) =>
    case PickLoad(l) =>
    case Quit =>
    case Reinitialise =>
  }

  lemma FineUpKeyOf(d: int)
    requires d in FINE_STEPS
    ensures Parse(KeyOf(NudgeRx(d))) == Some(NudgeRx(d))
  {
    var i := FineColumn(d);
    if i == 0 {} else if i == 1 {} else if i == 2 {} else if i == 3 {} else if i == 4 {} else if i == 5 {} else {}
  }

  lemma FineDownKeyOf(d: int)
    requires d in FINE_STEPS
    ensures Parse(KeyOf(NudgeRx(-d))) == Some(NudgeRx(-d))
  {
    var i := FineColumn(d);
    if i == 0 {} else if i == 1 {} else if i == 2 {} else if i == 3 {} else if i == 4 {} else if i == 5 {} else {}
  }

  /**
   * The dispatch recognises exactly the keys of `KEYS`, each stands for a
   * recognised command, and that command's key is the key itself.
   */
  lemma KeyOfParse(c: char)
    ensures Parse(c).Some? <==> c in KEYS
    ensures Parse(c).Some? ==> Known(Parse(c).value) && KeyOf(Parse(c).value) == c
  {
    if c in KEYS {
      var i :| 0 <= i < |KEYS| && KEYS[i] == c;
      KeyOfParseAt(i);
      assert KeyRoundTrips(c);
    }
  }

  predicate KeyRoundTrips(c: char)
  {
    Parse(c).Some? && Known(Parse(c).value) && KeyOf(Parse(c).value) == c
  }

  lemma KeyOfParseAt(i: nat)
    requires i < |KEYS|
    ensures KeyRoundTrips(KEYS[i])
  {
    if i < 4 {
      KeysFrom0(i);
    } else if i < 6 {
      KeysFrom4(i);
    } else if i < 8 {
      KeysFrom6(i);
    } else if i < 10 {
      KeysFrom8(i);
    } else if i < 12 {
      KeysFrom10(i);
    } else if i < 14 {
      KeysFrom12(i);
    } else if i < 16 {
      KeysFrom14(i);
    } else if i < 20 {
      KeysFrom16(i);
    } else if i < 24 {
      KeysFrom20(i);
    } else {
      KeysFrom24(i);
    }
  }

  // The key table is checked a few keys at a time, each group by cases.

  lemma KeysFrom0(i: nat)
    requires 0 <= i < 4
    ensures KeyRoundTrips(KEYS[i])
  {
    if i == 0 {} else if i == 1 {} else if i == 2 {} else {}
  }

  lemma KeysFrom4(i: nat)
    requires 4 <= i < 6
    ensures KeyRoundTrips(KEYS[i])
  {
    if i == 4 {} else {}
  }

  lemma KeysFrom6(i: nat)
    requires 6 <= i < 8
    ensures KeyRoundTrips(KEYS[i])
  {
    if i == 6 {} else {}
  }

  lemma KeysFrom8(i: nat)
    requires 8 <= i < 10
    ensures KeyRoundTrips(KEYS[i])
  {
    if i == 8 {} else {}
  }

  lemma KeysFrom10(i: nat)
    requires 10 <= i < 12
    ensures KeyRoundTrips(KEYS[i])
  {
    if i == 10 {} else {}
  }

  lemma KeysFrom12(i: nat)
    requires 12 <= i < 14
    ensures KeyRoundTrips(KEYS[i])
  {
    if i == 12 {} else {}
  }

  lemma KeysFrom14(i: nat)
    requires 14 <= i < 16
    ensures KeyRoundTrips(KEYS[i])
  {
    if i == 14 {} else {}
  }

  lemma KeysFrom16(i: nat)
    requires 16 <= i < 20
    ensures KeyRoundTrips(KEYS[i])
  {
    if i == 16 {} else if i == 17 {} else if i == 18 {} else {}
  }

  lemma KeysFrom20(i: nat)
    requires 20 <= i < 24
    ensures KeyRoundTrips(KEYS[i])
  {
    if i == 20 {} else if i == 21 {} else if i == 22 {} else {}
  }

  lemma KeysFrom24(i: nat)
    requires 24 <= i < 28
    ensures KeyRoundTrips(KEYS[i])
  {
    if i == 24 {} else if i == 25 {} else if i == 26 {} else {}
  }

  // ----- the key legend printed at the start of a pass -----

  /** The raising keys of the legend, finest first. */
  const LEGEND_UP: string := "rtyuiop]}"
  /** The lowering keys of the legend, in the same columns. */
  const LEGEND_DOWN: string := "fghjkl;[{"
  /** The step under each column as the legend prints it (0.01 Hz ... "100K" "1M"). */
  const LEGEND_STEPS_AS_PRINTED: seq<nat> := [1, 10, 100, 1000, 10000, 100000, 1000000, 10000000, 100000000]
  /** The step under each column, with the two coarse columns at 1 MHz and 10 MHz. */
  const LEGEND_STEPS: seq<nat> := FINE_STEPS + COARSE_STEPS

  /** How far a command moves the trial or target frequency. */
  function StepOf(cmd: Command): int
  {
    match cmd
    case NudgeRx(d) => d
    case MoveTarget(d) => d
    case _ => 0
  }

  /**
   * Each legend column's keys move by the step the legend shows: the upper
   * key up, the lower key down, fine steps on the trial, coarse on the target.
   */
  lemma KeysFollowLegend(i: nat)
    requires i < 9
    ensures Parse(LEGEND_UP[i]).Some? && Parse(LEGEND_DOWN[i]).Some?
    ensures StepOf(Parse(LEGEND_UP[i]).value) == LEGEND_STEPS[i]
    ensures StepOf(Parse(LEGEND_DOWN[i]).value) == -(LEGEND_STEPS[i] as int)
    ensures Parse(LEGEND_UP[i]).value.NudgeRx? == Parse(LEGEND_DOWN[i]).value.NudgeRx? == (i < 7)
  {
    if i == 0 {} else if i == 1 {} else if i == 2 {} else if i == 3 {} else if i == 4 {}
    else if i == 5 {} else if i == 6 {} else if i == 7 {} else {}
  }

  /** The printed legend agrees on the fine columns and understates both coarse columns tenfold. */
  lemma PrintedLegendMisstatesCoarseKeys(i: nat)
    requires i < 9
    ensures i < 7 ==> StepOf(Parse(LEGEND_UP[i]).value) == LEGEND_STEPS_AS_PRINTED[i]
    ensures i >= 7 ==> StepOf(Parse(LEGEND_UP[i]).value) == 10 * LEGEND_STEPS_AS_PRINTED[i]
  {
    KeysFollowLegend(i);
  }

  /** Keys 1..4 select 2, 4, 6, 8 mA; keys 6..9 select 0, 6, 8, 10 pF. */
  lemma SettingKeys(i: nat)
    requires i < 4
    ensures Parse("1234"[i]).Some? && Parse("1234"[i]).value.PickDrive?
    ensures Milliamps(Parse("1234"[i]).value.drive) == 2 * (i + 1)
    ensures Parse("6789"[i]).Some? && Parse("6789"[i]).value.PickLoad?
    ensures Picofarads(Parse("6789"[i]).value.load) == [0, 6, 8, 10][i]
  {
  }

  // ----- one key -----

  /** The state a recognised key other than `q` leaves, offset recomputed. */
  function Execute(s: State, cmd: Command): (r: State)
    requires cmd != Quit
    ensures OffsetCurrent(r)
  {
    match cmd
    case Reinitialise => Reset(s)
    case NudgeRx(d) => NudgeTrial(s, d)
    case MoveTarget(d) => NudgeTarget(s, d)
    case PickDrive(d) => SelectDrive(s, d)
    case PickLoad(l) => SelectLoad(s, l)
  }

  /** The result of reading one key: the new state, what was emitted, whether the pass ended. */
  datatype Outcome = Outcome(state: State, events: seq<Event>, done: bool)

  /**
   * A recognised key other than `q`: the state change, then (after the
   * driver's `init` for `R`, with the crystal load from before the reset)
   * one apply of the new state.
   */
  function Accept(s: State, cmd: Command, reply: Reply): (r: Outcome)
    requires cmd != Quit
    ensures !r.done && OffsetCurrent(r.state)
    ensures Reports(r.events) == 1
  {
    var next := Execute(s, cmd);
    var reinit := if cmd == Reinitialise then [DriverCall(Init(s.load))] else [];
    ReportsAppend(reinit, SetCalFreq(next, reply));
    Outcome(next, reinit + SetCalFreq(next, reply), false)
  }

  /**
   * One key of `vfo_interface`. An unrecognised key changes nothing and
   * emits nothing; every recognised key ends with exactly one status line;
   * only `q` ends the pass.
   */
  function Step(s: State, c: char, reply: Reply): (r: Outcome)
    ensures r.done <==> c == 'q'
    ensures r.done ==> r.state == Commit(s)
    ensures Parse(c).None? ==> r.state == s && r.events == []
    ensures Parse(c).Some? ==> Reports(r.events) == 1
    ensures Parse(c).Some? && c != 'q' ==> OffsetCurrent(r.state)
  {
    ParseQuit(c);
    var parsed := Parse(c);
    if parsed.None? then Outcome(s, [], false)
    else if parsed.value == Quit then Outcome(Commit(s), SetCalFreq(s, reply), true)
    else Accept(s, parsed.value, reply)
  }

  lemma ParseQuit(c: char)
    ensures Parse(c) == Some(Quit) <==> c == 'q'
  {
  }

  // ----- what each kind of key does -----

  /**
   * A fine key moves only the trial frequency, by its step modulo 2^64; with
   * the offset current, the offset moves the other way modulo 2^32. The key
   * is followed by exactly one apply.
   */
  lemma FineKey(s: State, c: char, reply: Reply)
    requires Parse(c).Some? && Parse(c).value.NudgeRx?
    ensures FineMove(s, Parse(c).value.delta, reply, Step(s, c, reply))
  {
    StepIsAccept(s, c, reply);
    FineAccept(s, Parse(c).value.delta, reply);
  }

  /**
   * `o` is what a fine key of step `d` does from `s`: only the trial moves,
   * by `d` modulo 2^64, the offset (when current) by -`d` modulo 2^32, and
   * the new state is applied.
   */
  ghost predicate FineMove(s: State, d: int, reply: Reply, o: Outcome)
  {
    && o.state.rx == Wrap64(s.rx + d)
    && o.state.(rx := s.rx, cal := s.cal) == s
    && (OffsetCurrent(s) ==> o.state.cal == ToInt32(s.cal - d))
    && o.events == SetCalFreq(o.state, reply)
    && !o.done
  }

  lemma FineAccept(s: State, d: int, reply: Reply)
    ensures FineMove(s, d, reply, Accept(s, NudgeRx(d), reply))
  {
  }

  /** Every recognised key other than `q` goes through `Accept`. */
  lemma StepIsAccept(s: State, c: char, reply: Reply)
    requires Parse(c).Some? && c != 'q'
    ensures Step(s, c, reply) == Accept(s, Parse(c).value, reply)
  {
    ParseQuit(c);
  }

  /**
   * A coarse key moves the target by its step modulo 2^64 and restarts the
   * trial there, so the offset falls back to the accepted one.
   */
  lemma CoarseKey(s: State, c: char, reply: Reply)
    requires Parse(c).Some? && Parse(c).value.MoveTarget?
    ensures CoarseMove(s, Parse(c).value.delta, reply, Step(s, c, reply))
  {
    StepIsAccept(s, c, reply);
    CoarseAccept(s, Parse(c).value.delta, reply);
  }

  /**
   * `o` is what a coarse key of step `d` does from `s`: the target moves by
   * `d` modulo 2^64, the trial restarts there with the accepted offset,
   * nothing else changes, and the new state is applied.
   */
  ghost predicate CoarseMove(s: State, d: int, reply: Reply, o: Outcome)
  {
    && o.state.target == Wrap64(s.target + d)
    && o.state.rx == o.state.target
    && o.state.cal == s.oldCal
    && o.state.(target := s.target, rx := s.rx, cal := s.cal) == s
    && o.events == SetCalFreq(o.state, reply)
    && !o.done
  }

  lemma CoarseAccept(s: State, d: int, reply: Reply)
    ensures CoarseMove(s, d, reply, Accept(s, MoveTarget(d), reply))
  {
  }

  /** With the offset current, a drive or load key changes that setting and nothing else. */
  lemma SettingKey(s: State, c: char, reply: Reply)
    requires OffsetCurrent(s)
    requires Parse(c).Some? && (Parse(c).value.PickDrive? || Parse(c).value.PickLoad?)
    ensures var cmd := Parse(c).value; var next := Step(s, c, reply).state;
      && next == (if cmd.PickDrive? then s.(drive := cmd.drive) else s.(load := cmd.load))
      && next.cal == s.cal
      && Step(s, c, reply).events == SetCalFreq(next, reply)
  {
    StepIsAccept(s, c, reply);
    SettingAccept(s, Parse(c).value, reply);
  }

  lemma SettingAccept(s: State, cmd: Command, reply: Reply)
    requires OffsetCurrent(s)
    requires cmd.PickDrive? || cmd.PickLoad?
    ensures var next := Accept(s, cmd, reply).state;
      && next == (if cmd.PickDrive? then s.(drive := cmd.drive) else s.(load := cmd.load))
      && next.cal == s.cal
      && Accept(s, cmd, reply).events == SetCalFreq(next, reply)
  {
  }

  /**
   * `R` calls the driver's `init` with the crystal load from before the
   * reset, then restores the defaults, keeps the target, restarts the trial
   * at it, and applies.
   */
  lemma ResetKey(s: State, reply: Reply)
    ensures var r := Step(s, 'R', reply);
      && r.state == State(s.target, s.target, 0, 0, Drive8mA, Load8pF)
      && r.events == [DriverCall(Init(s.load))] + SetCalFreq(r.state, reply)
      && !r.done
  {
  }

  /**
   * `q` applies the current offset as it stands, with no recomputation,
   * makes it the accepted offset, and ends the pass.
   */
  lemma QuitKey(s: State, reply: Reply)
    ensures var r := Step(s, 'q', reply);
      && r.done
      && r.events == SetCalFreq(s, reply)
      && SetCorrection(s.cal) in Calls(r.events)
      && r.state.oldCal == r.state.cal == s.cal
      && r.state.(oldCal := s.oldCal) == s
  {
    var calls := Calls(SetCalFreq(s, reply));
    assert calls[2] == SetCorrection(s.cal);
  }

  // ----- a pass -----

  /** The result of feeding keys to a pass: whether `q` arrived and ended it. */
  datatype PassResult = PassResult(state: State, events: seq<Event>, committed: bool)

  /** The recognised keys a pass reads, up to and including the first `q`. */
  function Accepted(keys: string): nat
    decreases |keys|
  {
    if |keys| == 0 then 0
    else if keys[0] == 'q' then 1
    else (if Parse(keys[0]).Some? then 1 else 0) + Accepted(keys[1..])
  }

  /**
   * The read loop of `vfo_interface`, one driver reply per key read. It
   * stops at the first `q`; the keys after it are flushed unread.
   */
  function Feed(s: State, keys: string, replies: seq<Reply>): (r: PassResult)
    requires |replies| == |keys|
    ensures r.committed <==> 'q' in keys
    ensures r.committed ==> r.state.oldCal == r.state.cal
    ensures OffsetCurrent(s) && 'q' !in keys ==> OffsetCurrent(r.state)
    ensures Reports(r.events) == Accepted(keys)
    decreases |keys|
  {
    if |keys| == 0 then PassResult(s, [], false)
    else
      var o := Step(s, keys[0], replies[0]);
      if o.done then PassResult(o.state, o.events, true)
      else
        var rest := Feed(o.state, keys[1..], replies[1..]);
        assert keys == [keys[0]] + keys[1..];
        ReportsAppend(o.events, rest.events);
        PassResult(rest.state, o.events + rest.events, rest.committed)
  }

  /**
   * Whatever follows the first `q` is discarded: the pass is the keys before
   * it followed by one apply of the state they reach, and that state's
   * offset becomes the accepted one.
   */
  lemma {:induction false} FeedStopsAtCommit(s: State, pre: string, post: string, replies: seq<Reply>)
    requires 'q' !in pre
    requires |replies| == |pre| + 1 + |post|
    ensures var p := Feed(s, pre, replies[..|pre|]);
      Feed(s, pre + "q" + post, replies) ==
      PassResult(Commit(p.state), p.events + SetCalFreq(p.state, replies[|pre|]), true)
    decreases |pre|
  {
    if |pre| == 0 {
      assert pre + "q" + post == "q" + post;
      FeedCommitsNow(s, post, replies);
    } else {
      var o := Step(s, pre[0], replies[0]);
      var p' := Feed(o.state, pre[1..], replies[1..][..|pre| - 1]);
      var last := SetCalFreq(p'.state, replies[|pre|]);
      var p := Feed(s, pre, replies[..|pre|]);
      SplitAtFirstKey(pre, post, replies);
      calc {
        Feed(s, pre + "q" + post, replies);
      == { FeedUnfold(s, pre + "q" + post, replies); }
        var rest := Feed(o.state, pre[1..] + "q" + post, replies[1..]);
        PassResult(rest.state, o.events + rest.events, rest.committed);
      == { FeedStopsAtCommit(o.state, pre[1..], post, replies[1..]); }
        PassResult(Commit(p'.state), o.events + (p'.events + last), true);
      == { AppendAssoc(o.events, p'.events, last); }
        PassResult(Commit(p'.state), (o.events + p'.events) + last, true);
      == { FeedUnfold(s, pre, replies[..|pre|]); }
        PassResult(Commit(p.state), p.events + SetCalFreq(p.state, replies[|pre|]), true);
      }
    }
  }

  lemma AppendAssoc<T>(a: seq<T>, b: seq<T>, c: seq<T>)
    ensures a + (b + c) == (a + b) + c
  {
  }

  lemma SplitAtFirstKey(pre: string, post: string, replies: seq<Reply>)
    requires 'q' !in pre && |pre| > 0
    requires |replies| == |pre| + 1 + |post|
    ensures (pre + "q" + post)[0] == pre[0] != 'q'
    ensures (pre + "q" + post)[1..] == pre[1..] + "q" + post
    ensures replies[..|pre|][0] == replies[0]
    ensures replies[..|pre|][1..] == replies[1..][..|pre| - 1]
    ensures replies[1..][|pre| - 1] == replies[|pre|]
    ensures 'q' !in pre[1..]
  {
  }

  lemma FeedCommitsNow(s: State, post: string, replies: seq<Reply>)
    requires |replies| == 1 + |post|
    ensures Feed(s, "q" + post, replies) == PassResult(Commit(s), SetCalFreq(s, replies[0]), true)
  {
    assert ("q" + post)[0] == 'q';
  }

  lemma FeedUnfold(s: State, keys: string, replies: seq<Reply>)
    requires |replies| == |keys| > 0 && keys[0] != 'q'
    ensures var o := Step(s, keys[0], replies[0]); var rest := Feed(o.state, keys[1..], replies[1..]);
      Feed(s, keys, replies) == PassResult(rest.state, o.events + rest.events, rest.committed)
  {
  }

  /** `n` presses of the same key. */
  function Repeat(c: char, n: nat): (keys: string)
    ensures |keys| == n && forall i :: 0 <= i < n ==> keys[i] == c
  {
    seq(n, _ => c)
  }

  /**
   * `n` presses of one fine key, with the offset current: the trial moves by
   * `n` steps modulo 2^64 and the offset by -`n` steps modulo 2^32, each
   * press followed by its own status line.
   */
  lemma {:induction false} RepeatedFineKey(s: State, c: char, n: nat, replies: seq<Reply>)
    requires OffsetCurrent(s)
    requires Parse(c).Some? && Parse(c).value.NudgeRx?
    requires |replies| == n
    ensures RepeatedFrom(s, Parse(c).value.delta, n, Feed(s, Repeat(c, n), replies))
    decreases n
  {
    if n == 0 {
      NoKeys(s, Parse(c).value.delta, Repeat(c, n), replies);
    } else {
      RepeatedFineKey(Step(s, c, replies[0]).state, c, n - 1, replies[1..]);
      FirstOfRepeated(s, c, n, replies);
    }
  }

  /** The inductive step of `RepeatedFineKey`: one press, then the `n` - 1 that follow. */
  lemma FirstOfRepeated(s: State, c: char, n: nat, replies: seq<Reply>)
    requires OffsetCurrent(s)
    requires Parse(c).Some? && Parse(c).value.NudgeRx?
    requires |replies| == n > 0
    requires var o := Step(s, c, replies[0]).state;
      RepeatedFrom(o, Parse(c).value.delta, n - 1, Feed(o, Repeat(c, n - 1), replies[1..]))
    ensures RepeatedFrom(s, Parse(c).value.delta, n, Feed(s, Repeat(c, n), replies))
  {
    var o := Step(s, c, replies[0]).state;
    FirstPress(s, c, replies[0]);
    FineKeyThenRest(s, c, n, replies);
    OneMoreStep(s, o, Parse(c).value.delta, n, Feed(o, Repeat(c, n - 1), replies[1..]), Feed(s, Repeat(c, n), replies));
  }

  /** `o` is `s` with the trial moved by `d` and the offset by -`d`. */
  ghost predicate SteppedBy(s: State, o: State, d: int)
  {
    && o.rx == Wrap64(s.rx + d) && o.cal == ToInt32(s.cal - d)
    && o.(rx := s.rx, cal := s.cal) == s
  }

  /** `r` is one status line followed by `rest`, ending where `rest` ends. */
  ghost predicate OneLineThen(r: PassResult, rest: PassResult)
  {
    r.state == rest.state && r.committed == rest.committed
    && Reports(r.events) == 1 + Reports(rest.events)
  }

  lemma FirstPress(s: State, c: char, reply: Reply)
    requires OffsetCurrent(s)
    requires Parse(c).Some? && Parse(c).value.NudgeRx?
    ensures SteppedBy(s, Step(s, c, reply).state, Parse(c).value.delta)
  {
    FineKey(s, c, reply);
  }

  /** A first step of `d` from `s` to `o`, then `n` - 1 more, are `n` steps from `s`. */
  lemma OneMoreStep(s: State, o: State, d: int, n: nat, rest: PassResult, r: PassResult)
    requires n > 0
    requires SteppedBy(s, o, d)
    requires RepeatedFrom(o, d, n - 1, rest)
    requires OneLineThen(r, rest)
    ensures RepeatedFrom(s, d, n, r)
  {
    var before, after := (n - 1) * d, n * d;
    OneMoreTimes(n, d);
    StepsCompose(s.rx, o.rx, r.state.rx, s.cal, o.cal, r.state.cal, d, before, after);
  }

  lemma OneMoreTimes(n: nat, d: int)
    requires n > 0
    ensures n * d == d + (n - 1) * d
  {
  }

  /** What `n` presses of a fine key of step `d` leave behind, starting from `s`. */
  ghost predicate RepeatedFrom(s: State, d: int, n: nat, r: PassResult)
  {
    && r.state.rx == Wrap64(s.rx + n * d)
    && r.state.cal == ToInt32(s.cal - n * d)
    && r.state.(rx := s.rx, cal := s.cal) == s
    && !r.committed && Reports(r.events) == n
  }

  lemma NoKeys(s: State, d: int, keys: string, replies: seq<Reply>)
    requires |keys| == 0 && |replies| == 0
    ensures RepeatedFrom(s, d, 0, Feed(s, keys, replies))
  {
    assert Wrap64(s.rx) == s.rx && ToInt32(s.cal) == s.cal;
  }

  /** The first of `n` presses of a fine key, and the `n` - 1 that follow it. */
  lemma FineKeyThenRest(s: State, c: char, n: nat, replies: seq<Reply>)
    requires Parse(c).Some? && Parse(c).value.NudgeRx?
    requires |replies| == n > 0
    ensures var o := Step(s, c, replies[0]).state;
      OneLineThen(Feed(s, Repeat(c, n), replies), Feed(o, Repeat(c, n - 1), replies[1..]))
  {
    var keys := Repeat(c, n);
    ParseQuit(c);
    var o := Step(s, c, replies[0]);
    FeedUnfold(s, keys, replies);
    assert keys[1..] == Repeat(c, n - 1);
    var rest := Feed(o.state, Repeat(c, n - 1), replies[1..]);
    ReportsAppend(o.events, rest.events);
  }

  /** A step of `d` followed by a move of `before` is a move of `d` + `before`, for the trial and for the offset. */
  lemma StepsCompose(rx0: int, rx1: int, rx2: int, cal0: int, cal1: int, cal2: int, d: int, before: int, after: int)
    requires after == d + before
    requires rx1 == Wrap64(rx0 + d) && rx2 == Wrap64(rx1 + before)
    requires cal1 == ToInt32(cal0 - d) && cal2 == ToInt32(cal1 - before)
    ensures rx2 == Wrap64(rx0 + after) && cal2 == ToInt32(cal0 - after)
  {
    CongruentAdd(rx1, rx0 + d, before, TWO_64);
    CongruentAdd(cal1, cal0 - d, -before, TWO_32);
    ToInt32Congruent(cal1 - before, cal0 - after);
  }

  /** An interactive pass: the trial restarts at the target and the keys are read. */
  function Pass(s: State, keys: string, replies: seq<Reply>): (r: PassResult)
    requires |replies| == |keys|
    ensures 'q' !in keys ==> OffsetCurrent(r.state) && !r.committed
    ensures r.committed ==> r.state.oldCal == r.state.cal
  {
    Feed(Reseed(s), keys, replies)
  }

  /**
   * After a committed pass, the next pass starts with the trial at the target
   * and the committed offset in force; committing again at once changes
   * nothing the pass keeps.
   */
  lemma CommitIdempotent(s: State, keys: string, replies: seq<Reply>, reply: Reply)
    requires |replies| == |keys| && Pass(s, keys, replies).committed
    ensures var s1 := Pass(s, keys, replies).state;
      && Reseed(s1).rx == s1.target
      && Reseed(s1).cal == s1.cal
      && var s2 := Pass(s1, "q", [reply]).state;
        s2.oldCal == s2.cal == s1.oldCal == s1.cal && s2 == s1.(rx := s1.target)
  {
    var s1 := Pass(s, keys, replies).state;
    assert "q"[0] == 'q';
  }

  // ----- the sketch around the passes -----

  /** `setup`: the driver's `init` with the 8 pF default, then one apply of the start-up state. */
  function Boot(reply: Reply): (r: PassResult)
    ensures Reports(r.events) == 1 && !r.committed
    // The globals are written out, not named as `Startup`, so the contract states their values.
    ensures r.state == State(START_TARGET, 0, 0, 0, Drive8mA, Load8pF)
    ensures r.events[0] == DriverCall(Init(r.state.load))
  {
    ReportsAppend([DriverCall(Init(Load8pF))], SetCalFreq(Startup, reply));
    PassResult(Startup, [DriverCall(Init(Load8pF))] + SetCalFreq(Startup, reply), false)
  }

  /**
   * Whatever the chip held, after start-up it holds the defaults: 8 pF,
   * 8 mA, zero correction, PLL A fixed and reset, and 20 MHz unless
   * `set_freq` failed (the frequency is then unknown).
   */
  lemma BootConfigures(chip: Chip, reply: Reply)
    ensures PerformAll(chip, Calls(Boot(reply).events)) ==
      Chip(Some(CrystalLoadRegister(Load8pF)), Some(Drive8mA), Some(0), true, true,
           if reply.freqFailed then None else Some(START_TARGET))
  {
    var apply := SetCalFreq(Startup, reply);
    CallsAppend([DriverCall(Init(Load8pF))], apply);
    assert Calls([DriverCall(Init(Load8pF))]) == [Init(Load8pF)];
    PerformAllCons(chip, Init(Load8pF), Calls(apply));
    SetCalFreqConfigures(Unconfigured, Startup, reply);
  }

  /**
   * One round of `loop`: poll the device; while it is initialising only warn,
   * otherwise print the legend and run a pass.
   */
  function Loop(s: State, sysInit: bool, keys: string, replies: seq<Reply>): (r: PassResult)
    requires |replies| == |keys|
    ensures sysInit ==> r.state == s && Reports(r.events) == 0 && !r.committed
    ensures !sysInit ==> Reports(r.events) == Accepted(keys) && r.committed == ('q' in keys)
    ensures !sysInit ==> r.state == Pass(s, keys, replies).state
    ensures Calls(r.events) ==
      [UpdateStatus(sysInit)] + (if sysInit then [] else Calls(Pass(s, keys, replies).events))
    ensures sysInit ==> InitWarning in r.events
  {
    if sysInit then
      CallsAppend([DriverCall(UpdateStatus(true))], [InitWarning]);
      PassResult(s, [DriverCall(UpdateStatus(true)), InitWarning], false)
    else
      var p := Pass(s, keys, replies);
      var head := [DriverCall(UpdateStatus(false)), Banner];
      ReportsAppend(head, p.events);
      CallsAppend(head, p.events);
      CallsAppend([head[0]], [head[1]]);
      assert head == [head[0]] + [head[1]];
      PassResult(p.state, head + p.events, p.committed)
  }
}

=== FILE: machine_int.dfy ===
/**
 * The machine integers of the calibration sketch, written out over Dafny's
 * unbounded `int`: `uint64_t` arithmetic wraps modulo 2^64, the cast to
 * `int32_t` reduces modulo 2^32 into the signed range, and `Serial.print(x, HEX)`
 * shows an `int32_t` as its unsigned 32-bit pattern.
 */
module MachineInt {

  const TWO_31: int := 0x8000_0000
  const TWO_32: int := 0x1_0000_0000
  const TWO_64: int := 0x1_0000_0000_0000_0000

  type U64 = x: int | 0 <= x < TWO_64
  type U32 = x: int | 0 <= x < TWO_32
  type I32 = x: int | -TWO_31 <= x < TWO_31

  /** `a` and `b` leave the same remainder modulo `m`. */
  predicate Congruent(a: int, b: int, m: int)
    requires m > 0
  {
    a % m == b % m
  }

  /** The `uint64_t` value of an exact result: the one u64 congruent to it. */
  function Wrap64(x: int): (r: U64)
    ensures Congruent(r, x, TWO_64)
    ensures 0 <= x < TWO_64 ==> r == x
  {
    x % TWO_64
  }

  /** The conversion to `int32_t`: the one i32 congruent to `x` modulo 2^32. */
  function ToInt32(x: int): (r: I32)
    ensures Congruent(r, x, TWO_32)
    ensures -TWO_31 <= x < TWO_31 ==> r == x
  {
    var m := x % TWO_32;
    if m < TWO_31 then m else m - TWO_32
  }

  /** The unsigned 32-bit pattern of `x`, as a hexadecimal print shows it. */
  function ToUint32(x: int): (r: U32)
    ensures Congruent(r, x, TWO_32)
  {
    x % TWO_32
  }

  /** `int32_t + int32_t`, wrapping on overflow like two's-complement hardware. */
  function AddInt32(a: I32, b: I32): (r: I32)
    ensures Congruent(r, a + b, TWO_32)
    ensures -TWO_31 <= a + b < TWO_31 ==> r == a + b
  {
    ToInt32(a + b)
  }

  /** Adding the same amount keeps two values congruent. */
  lemma CongruentAdd(a: int, b: int, c: int, m: int)
    requires m == TWO_32 || m == TWO_64
    requires Congruent(a, b, m)
    ensures Congruent(a + c, b + c, m)
  {
    var qa, qb := a / m, b / m;
    if m == TWO_32 {
      assert a + c == qa * TWO_32 + (a % m + c);
      assert b + c == qb * TWO_32 + (b % m + c);
    } else {
      assert a + c == qa * TWO_64 + (a % m + c);
      assert b + c == qb * TWO_64 + (b % m + c);
    }
  }

  /** Subtracting from the same amount keeps two values congruent. */
  lemma CongruentNeg(a: int, b: int, c: int)
    requires Congruent(a, b, TWO_32)
    ensures Congruent(c - a, c - b, TWO_32)
  {
    var qa, qb := a / TWO_32, b / TWO_32;
    assert c - a == -qa * TWO_32 + (c - a % TWO_32);
    assert c - b == -qb * TWO_32 + (c - b % TWO_32);
  }

  /** Congruence modulo 2^64 implies congruence modulo 2^32. */
  lemma CongruentNarrow(a: int, b: int)
    requires Congruent(a, b, TWO_64)
    ensures Congruent(a, b, TWO_32)
  {
    ModNarrow(a);
    ModNarrow(b);
  }

  lemma ModNarrow(a: int)
    ensures (a % TWO_64) % TWO_32 == a % TWO_32
  {
    var q1, r1 := a / TWO_64, a % TWO_64;
    var q2, r2 := r1 / TWO_32, r1 % TWO_32;
    assert a == (q1 * TWO_32 + q2) * TWO_32 + r2;
  }

  /** Two i32 values that agree modulo 2^32 are the same value. */
  lemma CongruentInt32Equal(x: I32, y: I32)
    requires Congruent(x, y, TWO_32)
    ensures x == y
  {
  }

  /** An i32 congruent to a value in the i32 range is that value. */
  lemma CongruentInRange(r: I32, x: int)
    requires Congruent(r, x, TWO_32)
    ensures -TWO_31 <= x < TWO_31 ==> r == x
  {
    if -TWO_31 <= x < TWO_31 {
      CongruentInt32Equal(r, x);
    }
  }

  /** The `int32_t` cast only depends on the residue modulo 2^32. */
  lemma ToInt32Congruent(x: int, y: int)
    requires Congruent(x, y, TWO_32)
    ensures ToInt32(x) == ToInt32(y)
  {
    CongruentInt32Equal(ToInt32(x), ToInt32(y));
  }

  /** Casting a wrapped u64 to `int32_t` is the same as casting the exact value. */
  lemma ToInt32OfWrap64(x: int)
    ensures ToInt32(Wrap64(x)) == ToInt32(x)
  {
    CongruentNarrow(Wrap64(x), x);
    ToInt32Congruent(Wrap64(x), x);
  }

  /** The hexadecimal pattern of an i32 determines it: reading it back as `int32_t` gives `x`. */
  lemma Uint32RoundTrip(x: I32)
    ensures ToInt32(ToUint32(x)) == x
  {
    ToInt32Congruent(ToUint32(x), x);
  }
}

=== FILE: scenarios.dfy ===
/**
 * Worked sessions at the serial prompt, from the start-up state: concrete
 * key sequences and the states and status lines they lead to.
 */
module Scenarios {
  import opened MachineInt
  import opened Wrappers
  import opened Driver
  import opened Session
  import opened Apply
  import opened Interpreter

  /** The start-up state with the trial restarted at the target: where the first pass begins. */
  const Fresh: State := State(START_TARGET, START_TARGET, 0, 0, Drive8mA, Load8pF)

  /** A pass that ended in state `t`, uncommitted, having printed `n` status lines. */
  ghost predicate Landed(t: State, n: nat, r: PassResult)
  {
    r.state == t && !r.committed && Reports(r.events) == n
  }

  /** `n` presses of a fine key whose running totals stay in range land on the plain sums. */
  lemma RepeatLands(s: State, c: char, n: nat, replies: seq<Reply>, t: State)
    requires OffsetCurrent(s)
    requires Parse(c).Some? && Parse(c).value.NudgeRx?
    requires |replies| == n
    requires 0 <= s.rx + n * Parse(c).value.delta < TWO_64
    requires -TWO_31 <= s.cal - n * Parse(c).value.delta < TWO_31
    requires t == s.(rx := s.rx + n * Parse(c).value.delta, cal := s.cal - n * Parse(c).value.delta)
    ensures Landed(t, n, Feed(s, Repeat(c, n), replies))
  {
    InRange(s.rx + n * Parse(c).value.delta, s.cal - n * Parse(c).value.delta);
    RepeatedFineKey(s, c, n, replies);
  }

  /** Five presses of `r` from start-up raise the trial by 0.05 Hz and lower the offset by 5. */
  lemma FiveFinestSteps(replies: seq<Reply>)
    requires |replies| == 5
    ensures Landed(Fresh.(rx := 2000000005, cal := -5), 5, Pass(Startup, "rrrrr", replies))
  {
    assert Parse('r') == Some(NudgeRx(1));
    assert Repeat('r', 5) == "rrrrr";
    RepeatLands(Fresh, 'r', 5, replies, Fresh.(rx := 2000000005, cal := -5));
  }

  /** Five presses of `r` and then `q` accept the offset -5; the next pass starts back at 20 MHz with it. */
  lemma CommitCarriesOver(replies: seq<Reply>)
    requires |replies| == 6
    ensures Reseed(Pass(Startup, "rrrrrq", replies).state) == State(START_TARGET, START_TARGET, -5, -5, Drive8mA, Load8pF)
  {
    assert "rrrrrq" == "rrrrr" + "q" + "";
    FeedStopsAtCommit(Fresh, "rrrrr", "", replies);
    FiveFinestSteps(replies[..5]);
  }

  /** In the pass after that commit, one more `r` takes the offset from -5 to -6. */
  lemma NextPassAfterCommit(s: State, reply: Reply)
    requires Reseed(s) == State(START_TARGET, START_TARGET, -5, -5, Drive8mA, Load8pF)
    ensures Landed(Reseed(s).(rx := 2000000001, cal := -6), 1, Pass(s, "r", [reply]))
  {
    assert Parse('r') == Some(NudgeRx(1));
    assert Repeat('r', 1) == "r";
    RepeatLands(Reseed(s), 'r', 1, [reply], Reseed(s).(rx := 2000000001, cal := -6));
  }

  /** A negative value wraps to 2^64 less its magnitude. */
  lemma WrapBelowZero(x: int)
    requires -TWO_64 <= x < 0
    ensures Wrap64(x) == TWO_64 + x
  {
  }

  /** The wrap and the cast leave values already in range alone. */
  lemma InRange(x: int, y: int)
    requires 0 <= x < TWO_64 && -TWO_31 <= y < TWO_31
    ensures Wrap64(x) == x && ToInt32(y) == y
  {
  }

  /** Key `1` selects 2 mA and applies it; nothing else changes. */
  lemma DriveKeyFromStart(reply: Reply)
    ensures Step(Fresh, '1', reply).state == Fresh.(drive := Drive2mA)
    ensures Step(Fresh, '1', reply).events == SetCalFreq(Fresh.(drive := Drive2mA), reply)
  {
    assert Parse('1') == Some(PickDrive(Drive2mA));
    SettingKey(Fresh, '1', reply);
  }

  /** The status line at start-up: offset 0, 20 MHz, 8 mA, 8 pF. */
  lemma StartupLine(status: bv8)
    ensures var line := Report(Startup, status);
      && line.calibration == 0 && line.calibrationHex == 0
      && line.megahertz == 20 && line.drive == " 8mA" && line.load == " 8pF"
  {
    assert MegahertzField(START_TARGET) == 20;
  }

  /** A negative offset is shown in hex as its 32-bit two's complement; 2 mA is labelled " 2mA". */
  lemma NegativeOffsetLine(status: bv8)
    ensures Report(Fresh.(cal := -5, drive := Drive2mA), status).calibrationHex == 0xFFFF_FFFB
    ensures Report(Fresh.(cal := -5, drive := Drive2mA), status).drive == " 2mA"
  {
  }

  /** A key with no command, such as `z`, changes nothing and prints nothing. */
  lemma LetterWithoutCommandIgnored(s: State, reply: Reply)
    ensures Step(s, 'z', reply) == Outcome(s, [], false)
  {
    assert Parse('z') == None;
  }

  /** `5`, the one digit between the drive and the load keys, is ignored too. */
  lemma DigitFiveIgnored(s: State, reply: Reply)
    ensures Step(s, '5', reply) == Outcome(s, [], false)
  {
    assert Parse('5') == None;
  }

  /** `[` in a pass at a 0.5 MHz target wraps the unsigned 64-bit target around. */
  lemma TargetWrapsBelowZero(reply: Reply)
    ensures Step(State(50000000, 50000000, 0, 0, Drive8mA, Load8pF), '[', reply).state.target
      == TWO_64 - 50000000
  {
    WrapBelowZero(50000000 - 100000000);
    assert Parse('[') == Some(MoveTarget(-100000000));
    CoarseKey(State(50000000, 50000000, 0, 0, Drive8mA, Load8pF), '[', reply);
  }

  /** `]` from start-up moves target and trial to 21 MHz and keeps the offset at 0. */
  lemma CoarseStepFromStart(reply: Reply)
    ensures Step(Fresh, ']', reply).state == Fresh.(target := 2100000000, rx := 2100000000)
  {
    InRange(START_TARGET + 100000000, 0);
    assert Parse(']') == Some(MoveTarget(100000000));
    CoarseKey(Fresh, ']', reply);
  }
}

=== FILE: session.dfy ===
/**
 * The calibration session: the globals of the sketch gathered into one
 * immutable record, and the state operations the key commands perform on it.
 * Frequencies are `uint64_t` hundredths of a hertz; offsets are `int32_t`.
 */
module Session {
  import opened MachineInt
  import opened Driver

  datatype State = State(
    target: U64,   // target_freq: the frequency CLK0 is told to produce
    rx: U64,       // rx_freq: the trial frequency the operator nudges
    cal: I32,      // cal_factor: the offset being previewed
    oldCal: I32,   // old_cal: the offset accepted by the last commit
    drive: Drive,
    load: Load)

  /** 20 MHz in hundredths of a hertz. */
  const START_TARGET: U64 := 2000000000

  /** The globals at power-up; `rx_freq` is zero-initialised. */
  const Startup := State(START_TARGET, 0, 0, 0, Drive8mA, Load8pF)

  /**
   * The offset recomputed after every accepted key: the `uint64_t`
   * difference target - trial cast to `int32_t`, plus the accepted offset,
   * with the `int32_t` addition wrapping.
   */
  function Offset(target: U64, rx: U64, oldCal: I32): (r: I32)
    ensures Congruent(r, target - rx + oldCal, TWO_32)
    ensures -TWO_31 <= target - rx + oldCal < TWO_31 ==> r == target - rx + oldCal
  {
    ToInt32OfWrap64(target - rx);
    CongruentAdd(ToInt32(Wrap64(target - rx)), target - rx, oldCal, TWO_32);
    var r := AddInt32(ToInt32(Wrap64(target - rx)), oldCal);
    assert Congruent(r, target - rx + oldCal, TWO_32);
    CongruentInRange(r, target - rx + oldCal);
    r
  }

  /** The previewed offset is the one the current frequencies call for. */
  predicate OffsetCurrent(s: State)
  {
    s.cal == Offset(s.target, s.rx, s.oldCal)
  }

  /**
   * The offset stored after every accepted key: target - trial cast to
   * `int32_t`, plus the accepted offset.
   */
  function Recompute(s: State): (r: State)
    ensures OffsetCurrent(r)
    ensures r.(cal := s.cal) == s
  {
    s.(cal := Offset(s.target, s.rx, s.oldCal))
  }

  /** The start of an interactive pass: the trial restarts at the target. */
  function Reseed(s: State): (r: State)
    ensures r.rx == r.target == s.target
    ensures r.cal == s.oldCal
    ensures OffsetCurrent(r)
    ensures r.(rx := s.rx, cal := s.cal) == s
  {
    s.(rx := s.target, cal := s.oldCal)
  }

  /**
   * A fine key: the trial frequency moves by `delta` modulo 2^64. From a
   * state whose offset is current, the offset moves by -`delta` modulo 2^32.
   */
  function NudgeTrial(s: State, delta: int): (r: State)
    ensures r.rx == Wrap64(s.rx + delta)
    ensures r.(rx := s.rx, cal := s.cal) == s
    ensures OffsetCurrent(r)
    ensures OffsetCurrent(s) ==> r.cal == ToInt32(s.cal - delta)
  {
    var r := Recompute(s.(rx := Wrap64(s.rx + delta)));
    NudgeTrialShiftsOffset(s, delta);
    r
  }

  lemma NudgeTrialShiftsOffset(s: State, delta: int)
    ensures OffsetCurrent(s) ==> Offset(s.target, Wrap64(s.rx + delta), s.oldCal) == ToInt32(s.cal - delta)
  {
    if OffsetCurrent(s) {
      NudgeTrialShiftsOffsetCurrent(s, delta);
    }
  }

  lemma NudgeTrialShiftsOffsetCurrent(s: State, delta: int)
    requires OffsetCurrent(s)
    ensures Offset(s.target, Wrap64(s.rx + delta), s.oldCal) == ToInt32(s.cal - delta)
  {
    var exact := s.target - s.rx + s.oldCal;
    var r := Offset(s.target, Wrap64(s.rx + delta), s.oldCal);
    // the new offset agrees with exact - delta modulo 2^32 ...
    WrappedTrialCongruent(s.target, s.rx, s.oldCal, delta);
    assert Congruent(r, exact - delta, TWO_32);
    // ... and the old offset with exact
    assert Congruent(s.cal, exact, TWO_32);
    ShiftedOffset(r, s.cal, exact, delta);
  }

  /** An `int32_t` congruent to exact - delta is the old offset less delta, cast. */
  lemma ShiftedOffset(r: I32, cal: I32, exact: int, delta: int)
    requires Congruent(r, exact - delta, TWO_32)
    requires Congruent(cal, exact, TWO_32)
    ensures r == ToInt32(cal - delta)
  {
    CongruentAdd(cal, exact, -delta, TWO_32);
    ToInt32Congruent(r, exact - delta);
    ToInt32Congruent(cal - delta, exact - delta);
    assert ToInt32(r) == r;
  }

  /** Wrapping the moved trial frequency does not change the difference modulo 2^32. */
  lemma WrappedTrialCongruent(target: int, rx: int, oldCal: int, delta: int)
    ensures Congruent(target - Wrap64(rx + delta) + oldCal, target - rx + oldCal - delta, TWO_32)
  {
    var rx' := Wrap64(rx + delta);
    CongruentNarrow(rx', rx + delta);
    CongruentNeg(rx', rx + delta, target + oldCal);
    assert target - rx' + oldCal == target + oldCal - rx';
    assert target - rx + oldCal - delta == target + oldCal - (rx + delta);
  }

  /**
   * A coarse key: the target moves by `delta` modulo 2^64, the trial
   * restarts at the new target, and so the offset falls back to the
   * accepted one.
   */
  function NudgeTarget(s: State, delta: int): (r: State)
    ensures r.target == Wrap64(s.target + delta)
    ensures r.rx == r.target
    ensures r.cal == s.oldCal
    ensures r.(target := s.target, rx := s.rx, cal := s.cal) == s
    ensures OffsetCurrent(r)
  {
    var t := Wrap64(s.target + delta);
    Recompute(s.(target := t, rx := t))
  }

  /** A drive key: only the drive strength changes once the offset is current. */
  function SelectDrive(s: State, d: Drive): (r: State)
    ensures r.drive == d
    ensures OffsetCurrent(r)
    ensures OffsetCurrent(s) ==> r == s.(drive := d)
  {
    Recompute(s.(drive := d))
  }

  /** A load key: only the crystal load changes once the offset is current. */
  function SelectLoad(s: State, l: Load): (r: State)
    ensures r.load == l
    ensures OffsetCurrent(r)
    ensures OffsetCurrent(s) ==> r == s.(load := l)
  {
    Recompute(s.(load := l))
  }

  /** The full reset: defaults restored, target kept, trial restarted at it. */
  function Reset(s: State): (r: State)
    ensures r.cal == 0 && r.oldCal == 0
    ensures r.drive == Drive8mA && r.load == Load8pF
    ensures r.target == s.target && r.rx == s.target
    ensures OffsetCurrent(r)
  {
    Recompute(State(s.target, s.target, 0, 0, Drive8mA, Load8pF))
  }

  /** The commit: the previewed offset becomes the accepted one, unrecomputed. */
  function Commit(s: State): (r: State)
    ensures r.oldCal == r.cal == s.cal
    ensures r.(oldCal := s.oldCal) == s
  {
    s.(oldCal := s.cal)
  }
}

=== FILE: wrappers.dfy ===
/** An optional value, used where the program has "no such thing" as an answer. */
module Wrappers {

  datatype Option<+T> = None | Some(value: T)
}
